=== FILE: README.md ===
# Server-sent-events framing of the llm-demo streaming relay

This project models the one piece of real logic in the `llm-demo` gateway:
the way `StreamResponse` in `api/api.go` relays a streaming LLM completion
to the HTTP client as a server-sent-event stream (the event-stream format of
section 9.2 of the WHATWG HTML Living Standard).

- For every chunk the backend hands to the streaming callback, the callback
  splits the chunk on `\n` with Go's `bytes.Split`, drops empty segments and
  writes each remaining line as the frame `data: <line>\n\n`, in order. It
  always returns `nil`.
- After the backend call returns, the handler writes
  `event: error\ndata: Failed to call llm\n\n` if the call failed, and then
  `data: Function call :<repr>\n\n` if the first choice carries a function
  call.

The model is a pure byte-string transformation, in five modules:

- `Wrappers` (`wrappers.dfy`): the `Option` type, standing for Go's nil.
- `Bytes` (`bytes.dfy`): the `byte` type, the `\n` byte and ASCII constants.
- `ByteSplit` (`split.dfy`): `Split`, Go's `bytes.Split` for a one-byte
  separator, and its partner `Join` (Go's `bytes.Join`), with the round trips
  between them and the law for splitting across a separator.
- `EventStream` (`event_stream.dfy`): the two frame shapes the handler
  writes (`Encode`), and a strict decoder `Decode` that reads a byte stream
  made of such frames back into events. `Decode` is the partner through which
  the properties of the relay's output are stated. It reads lines ended by
  `\n` only; section 9.2 also ends a line at `\r` and at `\r\n`, and it decodes
  the stream as UTF-8, replacing invalid sequences. So on the bodies `Decode`
  accepts, `Decode` reads what a section 9.2 client reads when they hold no
  `\r` and are valid UTF-8. `Decode` rejects a body in which a payload spans
  lines (`MultiLineCallRejected`), while a section 9.2 client still reads its
  first line as the event's data and each further line as a field line of
  its own (see `MultiLineCallBreaksFraming`).
  `RelayCarriageReturn` covers only the `\r` half: it ties a `\r` in the
  body to the chunks and the function call. Validity as UTF-8 is not
  modelled.
- `StreamRelay` (`relay.dfy`): `Lines` and `FrameChunk` (one chunk),
  `OnChunk` (the callback and its `nil` return), `Deliver` (the backend
  handing chunks to the callback in order), `Relay` (the whole body) and
  `RelayEvents` (the events that body carries); the methods `WriteChunk`,
  `WriteSegments` and `StreamResponse` follow the handler's loops statement
  by statement and are proved equal to the functional definitions.

The function call's printed form (Go `%v` of the `FuncCall` value) is an
opaque byte string `repr`; `failed` says whether the backend call returned
an error. The backend's chunks are the input sequence `chunks`.

The function-call frame is a plain `data:` frame, write errors are ignored
so there is no abort on disconnect, and the callback never asks the backend
to stop.

## Model

| member | source | states |
|---|---|---|
| ByteSplit.Split | api/api.go:104 | `bytes.Split` on a one-byte separator: n separators give exactly n + 1 segments; with `JoinSplit`, the empty input's one segment is itself empty |
| ByteSplit.SplitSegmentsNoSep | api/api.go:104 | no segment contains the separator |
| ByteSplit.SplitHas | api/api.go:104 | splitting loses no byte other than the separator: such a byte is in the chunk exactly when it is in one of the segments |
| ByteSplit.JoinSplit | api/api.go:104 | splitting loses nothing: joining the segments with `\n` gives back the chunk |
| ByteSplit.SplitJoin | api/api.go:104 | separator-free lines joined with `\n` split back into exactly those lines, in order |
| ByteSplit.SplitConcat | api/api.go:104 | a segment never spans a `\n`: the segments of `a\nb` are those of `a` followed by those of `b` |
| ByteSplit.SplitNoSep | api/api.go:104 | a chunk without `\n` is one segment, itself |
| StreamRelay.Lines | api/api.go:104-105 | the lines the callback frames are at most one more than the chunk's `\n` count, each non-empty and free of `\n` |
| StreamRelay.NonEmptyMembers | api/api.go:105 | the lines kept are exactly the segments that are not empty |
| StreamRelay.LineBytes | api/api.go:104-105 | a byte other than `\n` is in the chunk exactly when it is in one of the lines the callback frames |
| StreamRelay.FrameChunk | api/api.go:104-110 | `\r` is not a line break for the callback: the chunk's output holds a `\r` exactly when the chunk does |
| StreamRelay.FrameChunkOfLines | api/api.go:104-106 | a chunk made of `\n`-separated lines is written as exactly one `data: <line>\n\n` frame per non-empty line, in line order, and nothing for an empty line |
| StreamRelay.FrameChunkDecodes | api/api.go:104-106 | `Decode` reads one chunk's output as one `data` event per non-empty line, in order, each payload non-empty and without `\n` |
| StreamRelay.FrameChunkEmptyIff | api/api.go:104-105 | a chunk writes nothing if and only if it is empty or consists only of `\n` bytes |
| StreamRelay.FrameChunkNewline | api/api.go:103-110 | framing is a homomorphism over `\n`: `FrameChunk(a + "\n" + b) == FrameChunk(a) + FrameChunk(b)` |
| StreamRelay.LineAcrossChunks | api/api.go:103-110 | lines are not reassembled across chunks: a line delivered in two chunks becomes two frames, which differ from the single frame of the whole line |
| StreamRelay.SingleLineFrame | api/api.go:104-106 | a non-empty chunk without `\n` is written as the single frame `data: <chunk>\n\n` |
| StreamRelay.OnChunk | api/api.go:111 | the callback always returns nil, so it never asks the backend to stop streaming |
| StreamRelay.WriteSegments | api/api.go:104-110 | the loop over the segments writes, in order, the frame of each non-empty segment and skips empty ones |
| StreamRelay.WriteChunk | api/api.go:103-112 | the callback's statements write exactly `FrameChunk(chunk)` and return nil |
| StreamRelay.DeliverAll | api/api.go:103-112 | since the callback never returns an error, every chunk is framed, chunk after chunk, lines in order |
| StreamRelay.StreamResponse | api/api.go:98-122 | the handler's statements (callback over the chunks, then the error frame, then the function-call frame) write exactly `Relay(chunks, failed, funcCall)` |
| StreamRelay.Relay | api/api.go:103-122 | the relay body is the encoding of its event list: line events, then the error event, then the function-call event |
| StreamRelay.ErrorTail | api/api.go:114-118 | a failed call appends exactly the bytes `event: error\ndata: Failed to call llm\n\n`, and a successful one appends nothing |
| StreamRelay.CallTail | api/api.go:119-122 | a function call appends exactly `data: Function call :`, its printed form and `\n\n`, and no function call appends nothing |
| StreamRelay.RelayDecodes | api/api.go:103-121 | `Decode` reads the body back as exactly that event list when the function call's printed form has no `\n` |
| StreamRelay.MultiLineCallBreaksFraming | api/api.go:119-121 | when the function call's printed form holds a `\n`, the body does not decode into the events written |
| StreamRelay.MultiLineCallRejected | api/api.go:119-121 | a function-call text `x\ny` with `y` a second line makes the body undecodable: the decoder finds the stray line `y` where the blank line should be |
| EventStream.StrayLineRejected | api/api.go:106-120 | a `data:` frame whose text runs onto a second line is rejected, whatever that non-blank line holds |
| StreamRelay.RelayCarriageReturn | api/api.go:103-122 | the body holds a `\r` exactly when some chunk or the function call's printed form does |
| StreamRelay.RelayEventsShape | api/api.go:114-121 | one `data` event per line of the chunks in order; exactly one error event, `Failed to call llm`, if and only if the call failed, placed right after the line events; the `Function call :<repr>` data event last when the first choice has a function call |
| StreamRelay.ThreeLinesScenario | api/api.go:103-112 | `Decode` reads chunks `l1\nl2` and `l3` as three `data` events `l1`, `l2`, `l3` in order and no error event |
| StreamRelay.FailureAfterChunkScenario | api/api.go:103-117 | a call that fails after one chunk yields that chunk's `data` events followed by exactly one error event |
| StreamRelay.FailureBeforeChunkScenario | api/api.go:114-117 | a call that fails before any chunk yields the error event alone |
| EventStream.EncodeNewlines | api/api.go:106-120 | `Encode`, the frames of lines 106, 116 and 120: every frame ends with the blank line `\n\n` that dispatches its event, and with a `\n`-free text the frame's newlines are the blank line that closes it and the end of each field line: one field line for a data frame (line 106, 120), two for an error frame (line 116) |
| EventStream.NextFrame | api/api.go:106-120 | a frame is recognised only when the bytes consumed are exactly the encoding of the event read, with a payload free of `\n` |
| EventStream.Decode | api/api.go:106-120 | whatever the decoder accepts re-encodes to the same bytes: every byte of the body belongs to a frame |
| EventStream.DecodeEncode | api/api.go:106-120 | the frames `data: <text>\n\n` and `event: error\ndata: <text>\n\n` are read back as the events written, in order, when texts have no `\n` |
| EventStream.EncodeInjective | api/api.go:106-120 | two different event lists with `\n`-free texts never produce the same body |

## Left out

- `Translator` and `GenerateResponse` (api/api.go:15-84) and the router in `main.go`: JSON binding, gin responses and the `ollama` client calls are thin wrappers over libraries that are not part of this model; `main.go` does not register `StreamResponse` at all.
- The prompt sent to the backend (api/api.go:100) and the backend itself: the chunks, the failure flag and the function call are inputs of the model.
- Response headers, `c.Writer.Flush()`, `fmt.Println` and `log.Println` (api/api.go:87-89, 95, 107-108, 117, 121): transport and logging side effects; the model is the concatenated body only.
- Model-load failure (api/api.go:91-96): the code writes an error frame and then calls a method on a nil client; the model assumes the client was constructed.
- A failed backend call followed by reading `content.Choices[0]` (api/api.go:114-119) normally dereferences a nil response; that crash is not modelled. `Relay` writes the error frame and then the function-call frame whenever one is supplied, which is what the statements do when a response is present.
- Go `%v` formatting of `FuncCall` (api/api.go:120): the printed form is an opaque byte string.
- Write errors and client disconnect: the code ignores write errors, so the model's writes always succeed and there is no abort path.
- `Deliver`: what the streaming client does when a callback returns an error is library behaviour outside this model; `Deliver` stops at the first error, and since `OnChunk` never returns one, no stated property depends on that choice.
- StreamRelay.RelayDecodes: requires the function call's printed form to contain no `\n`. A printed form with a newline puts a line of its own into the stream, and `MultiLineCallBreaksFraming` proves the body then no longer decodes into the events written. The printed form is also subject to the `\r` and UTF-8 gap of `FrameChunkDecodes` below.
- StreamRelay.FrameChunkDecodes: `Decode` ends a line only at `\n`. Section 9.2 also ends a line at a bare `\r` and at `\r\n`, so a section 9.2 client reads the stated events only when the chunk holds no `\r` and is valid UTF-8. For chunk `\r`, the client reads one empty `data` event; for chunk `a\rb`, it reads `a` and ignores `b` as an unknown field. `FrameChunk` states that the output holds a `\r` exactly when the chunk does. The model also works on bytes, while section 9.2 decodes the stream as UTF-8, replacing invalid sequences and stripping a leading byte order mark.
- StreamRelay.ThreeLinesScenario: the stated events are what `Decode` reads; a section 9.2 client reads the same events only when `l1`, `l2` and `l3` hold no `\r` and are valid UTF-8 (see `FrameChunkDecodes`).
- StreamRelay.FailureAfterChunkScenario: the stated events are what `Decode` reads; a section 9.2 client reads the same events only when the chunk holds no `\r` and is valid UTF-8 (see `FrameChunkDecodes`).
- StreamRelay.RelayEventsShape: states the event list rather than the decoded body; combined with `RelayDecodes` it describes what `Decode` reads under the same no-newline condition.
- String conversion `string(line)` and `%s` (api/api.go:106): they copy the bytes unchanged, so the payload is the line's bytes.

=== FILE: bytes.dfy ===
/** Bytes as the relay writes them, and the ASCII constants it uses. */
module Bytes {

  /** One octet; Go's `byte`. */
  newtype byte = b: int | 0 <= b < 256

  /** The line separator the streaming callback splits on, `'\n'`. */
  const NL: byte := 10

  /** The carriage return, `'\r'`: the byte the callback does not split on,
      although the event-stream format also ends lines at it. */
  const CR: byte := 13

  /** True when every character of `s` is 7-bit ASCII. */
  predicate IsAscii(s: string) {
    forall i | 0 <= i < |s| :: s[i] as int < 128
  }

  /** The bytes of an ASCII string literal (Go string literals are UTF-8,
      which agrees with ASCII on these characters). */
  function Ascii(s: string): (r: seq<byte>)
    requires IsAscii(s)
    ensures |r| == |s|
    ensures forall i | 0 <= i < |s| :: r[i] as int == s[i] as int
  {
    seq(|s|, i requires 0 <= i < |s| => s[i] as int as byte)
  }

  /** The bytes of a concatenation are the bytes of its parts. */
  lemma AsciiAppend(a: string, b: string)
    requires IsAscii(a) && IsAscii(b)
    ensures IsAscii(a + b) && Ascii(a + b) == Ascii(a) + Ascii(b)
  {
    assert forall i | 0 <= i < |a + b| :: (a + b)[i] == if i < |a| then a[i] else b[i - |a|];
  }
}

=== FILE: event_stream.dfy ===
/** The two frame shapes the relay writes in the event-stream format of
    section 9.2 of the WHATWG HTML Living Standard (server-sent events), and a
    strict decoder that reads such a byte stream back into events. The decoder
    ends a line only at `\n` and works on bytes; section 9.2 also ends lines
    at `\r` and `\r\n` and decodes the stream as UTF-8, so on the streams the
    decoder accepts, the two agree when the stream holds no `\r` and is valid
    UTF-8. A stream in which a text spans lines is rejected here, while a
    section 9.2 client reads each of its lines as a field line. */
module EventStream {
  import opened Bytes
  import opened Wrappers
  import opened ByteSplit

  /** One event of the stream: a plain `data` event, or one whose
      `event` field names `error`. */
  datatype Event = Data(text: seq<byte>) | Error(text: seq<byte>)

  /** `data: `: the `data` field name, its colon and the single space a
      reader strips. */
  const DataField: seq<byte> := [0x64, 0x61, 0x74, 0x61, 0x3A, 0x20]

  /** `event: error\n`: the line that names the event type `error`. */
  const ErrorField: seq<byte> := [0x65, 0x76, 0x65, 0x6E, 0x74, 0x3A, 0x20, 0x65, 0x72, 0x72, 0x6F, 0x72, 0x0A]

  /** Everything an error frame writes before its text. */
  const ErrorHead: seq<byte> := ErrorField + DataField

  /** The byte constants are the ASCII spellings they stand for. */
  lemma FieldsAreAscii()
    ensures DataField == Ascii("data: ")
    ensures ErrorField == Ascii("event: error\n")
  {
  }

  /** The bytes written for one event: `data: <text>\n\n`, preceded by
      `event: error\n` for an error event. */
  function Encode(e: Event): seq<byte>
  {
    match e
    case Data(t) => DataField + t + [NL, NL]
    case Error(t) => ErrorHead + t + [NL, NL]
  }

  /** Every frame ends with the blank line that dispatches its event. When the
      text has no `\n`, the frame's only other newlines end its field lines:
      one field line for a data event, two for an error event. */
  lemma EncodeNewlines(e: Event)
    ensures |Encode(e)| >= 2 && Encode(e)[|Encode(e)| - 2..] == [NL, NL]
    ensures WellFormed(e) ==> Count(Encode(e), NL) == (if e.Error? then 3 else 2)
  {
    HeadNewlines();
    if e.Data? {
      FrameNewlines(DataField, e.text);
    } else {
      FrameNewlines(ErrorHead, e.text);
    }
  }

  /** The newlines of a frame are those of its fields, of its text, and the
      two that close it. */
  lemma FrameNewlines(head: seq<byte>, t: seq<byte>)
    ensures Count(head + t + [NL, NL], NL) == Count(head, NL) + Count(t, NL) + 2
  {
    CountAppend(head + t, [NL, NL], NL);
    CountAppend(head, t, NL);
    assert Count([NL, NL], NL) == 2;
  }

  /** `data: ` holds no newline and the error fields hold one, ending the
      `event:` line. */
  lemma HeadNewlines()
    ensures Count(DataField, NL) == 0
    ensures Count(ErrorHead, NL) == 1
  {
    assert NL !in DataField;
    var pre := ErrorField[..12];
    assert NL !in pre;
    assert ErrorHead == pre + ([NL] + DataField);
    CountAppend(pre, [NL] + DataField, NL);
    assert ([NL] + DataField)[1..] == DataField;
  }

  /** The bytes written for a sequence of events, in order. */
  function EncodeAll(es: seq<Event>): seq<byte>
  {
    if |es| == 0 then [] else Encode(es[0]) + EncodeAll(es[1..])
  }

  /** An event whose text keeps its frame on one `data:` line. */
  predicate WellFormed(e: Event)
  {
    NL !in e.text
  }

  /** Every event of `es` is well formed. */
  predicate AllWellFormed(es: seq<Event>)
  {
    forall i | 0 <= i < |es| :: WellFormed(es[i])
  }

  lemma AllWellFormedAppend(es: seq<Event>, fs: seq<Event>)
    requires AllWellFormed(es) && AllWellFormed(fs)
    ensures AllWellFormed(es + fs)
  {
    assert forall i | |es| <= i < |es + fs| :: (es + fs)[i] == fs[i - |es|];
  }

  /** The position of the first `\n` in `t`, if any. */
  function FirstNewline(t: seq<byte>): (r: Option<nat>)
    ensures r.None? <==> NL !in t
    ensures r.Some? ==> r.value < |t| && t[r.value] == NL && NL !in t[..r.value]
  {
    if |t| == 0 then None
    else if t[0] == NL then Some(0)
    else match FirstNewline(t[1..])
      case None => None
      case Some(i) => assert t[..i + 1] == [t[0]] + t[1..][..i]; Some(i + 1)
  }

  /** Where the text of a frame whose fields end at `start` ends: at the first
      `\n` after `start`, which must be followed by a second `\n`. */
  function TextEnd(s: seq<byte>, start: nat): (r: Option<nat>)
    requires start <= |s|
    ensures r.Some? ==> start <= r.value && r.value + 2 <= |s|
    ensures r.Some? ==> s[r.value] == NL && s[r.value + 1] == NL && NL !in s[start..r.value]
  {
    match FirstNewline(s[start..])
    case None => None
    case Some(n) =>
      assert s[start..][..n] == s[start..start + n];
      if start + n + 1 < |s| && s[start + n + 1] == NL then Some(start + n) else None
  }

  /** A frame cut out of `s`: the fields, the text, and the two newlines. */
  lemma FrameSlice(s: seq<byte>, head: seq<byte>, end: nat)
    requires head <= s && |head| <= end && end + 2 <= |s|
    requires s[end] == NL && s[end + 1] == NL
    ensures s[..end + 2] == head + s[|head|..end] + [NL, NL]
  {
  }

  /** The error frame at the start of `s` whose text ends at `end`. */
  lemma ErrorFrameAt(s: seq<byte>, end: nat)
    requires ErrorHead <= s && |ErrorHead| <= end && end + 2 <= |s|
    requires s[end] == NL && s[end + 1] == NL
    ensures s[..end + 2] == Encode(Error(s[|ErrorHead|..end]))
  {
    FrameSlice(s, ErrorHead, end);
  }

  /** The data frame at the start of `s` whose text ends at `end`. */
  lemma DataFrameAt(s: seq<byte>, end: nat)
    requires DataField <= s && |DataField| <= end && end + 2 <= |s|
    requires s[end] == NL && s[end + 1] == NL
    ensures s[..end + 2] == Encode(Data(s[|DataField|..end]))
  {
    FrameSlice(s, DataField, end);
  }

  /** The event framed at the start of `s` and the number of bytes its frame
      takes, or None when `s` does not start with a complete frame. */
  function NextFrame(s: seq<byte>): (r: Option<(Event, nat)>)
    ensures r.Some? ==> 0 < r.value.1 <= |s| && s[..r.value.1] == Encode(r.value.0)
    ensures r.Some? ==> WellFormed(r.value.0)
  {
    if ErrorHead <= s then ErrorFrame(s)
    else if DataField <= s then DataFrame(s)
    else None
  }

  /** The error frame at the start of `s`, which begins with the error fields. */
  function ErrorFrame(s: seq<byte>): (r: Option<(Event, nat)>)
    requires ErrorHead <= s
    ensures r.Some? ==> 0 < r.value.1 <= |s| && s[..r.value.1] == Encode(r.value.0)
    ensures r.Some? ==> r.value.0.Error? && WellFormed(r.value.0)
  {
    match TextEnd(s, |ErrorHead|)
    case None => None
    case Some(end) =>
      ErrorFrameAt(s, end);
      Some((Error(s[|ErrorHead|..end]), end + 2))
  }

  /** The data frame at the start of `s`, which begins with `data: `. */
  function DataFrame(s: seq<byte>): (r: Option<(Event, nat)>)
    requires DataField <= s
    ensures r.Some? ==> 0 < r.value.1 <= |s| && s[..r.value.1] == Encode(r.value.0)
    ensures r.Some? ==> r.value.0.Data? && WellFormed(r.value.0)
  {
    match TextEnd(s, |DataField|)
    case None => None
    case Some(end) =>
      DataFrameAt(s, end);
      Some((Data(s[|DataField|..end]), end + 2))
  }

  /** The events of a byte stream made only of complete frames, or None. */
  function Decode(s: seq<byte>): (r: Option<seq<Event>>)
    ensures r.Some? ==> EncodeAll(r.value) == s
    ensures r.Some? ==> AllWellFormed(r.value)
    decreases |s|
  {
    if |s| == 0 then Some([])
    else match NextFrame(s)
      case None => None
      case Some((e, n)) =>
        match Decode(s[n..])
        case None => None
        case Some(rest) =>
          FrameThenRest(s, e, n, rest);
          Some([e] + rest)
  }

  /** A `data:` frame whose text runs onto a second line `y` is not a frame:
      the first line ends without the blank line that would close it. */
  lemma StrayLineRejected(t: seq<byte>, y: seq<byte>)
    requires NL !in t
    requires |y| > 0 && y[0] != NL
    ensures Decode(DataField + (t + [NL] + y) + [NL, NL]) == None
  {
    var s := DataField + (t + [NL] + y) + [NL, NL];
    assert s == DataField + (t + [NL] + (y + [NL, NL]));
    FieldsDiffer(s);
    assert s[|DataField|..] == t + [NL] + (y + [NL, NL]);
    FirstNewlineAfter(t, y + [NL, NL]);
    assert s[|DataField| + |t| + 1] == y[0];
    assert DataFrame(s) == None;
  }

  /** A frame followed by the encoding of the bytes after it is the encoding
      of the longer event list. */
  lemma FrameThenRest(s: seq<byte>, e: Event, n: nat, rest: seq<Event>)
    requires n <= |s| && s[..n] == Encode(e) && EncodeAll(rest) == s[n..]
    requires WellFormed(e) && AllWellFormed(rest)
    ensures EncodeAll([e] + rest) == s
    ensures AllWellFormed([e] + rest)
  {
    assert ([e] + rest)[1..] == rest;
    assert s == s[..n] + s[n..];
  }

  /** The frame of a well-formed event is read back whole, whatever follows it. */
  lemma NextFrameEncode(e: Event, tail: seq<byte>)
    requires WellFormed(e)
    ensures NextFrame(Encode(e) + tail) == Some((e, |Encode(e)|))
  {
    if e.Data? {
      NextFrameData(e.text, tail);
    } else {
      NextFrameError(e.text, tail);
    }
  }

  lemma NextFrameData(t: seq<byte>, tail: seq<byte>)
    requires NL !in t
    ensures NextFrame(Encode(Data(t)) + tail) == Some((Data(t), |Encode(Data(t))|))
  {
    var s := Encode(Data(t)) + tail;
    assert s == DataField + (t + [NL, NL] + tail);
    FieldsDiffer(s);
    TextEndAfter(s, DataField, t, tail);
  }

  lemma NextFrameError(t: seq<byte>, tail: seq<byte>)
    requires NL !in t
    ensures NextFrame(Encode(Error(t)) + tail) == Some((Error(t), |Encode(Error(t))|))
  {
    var s := Encode(Error(t)) + tail;
    assert s == ErrorHead + (t + [NL, NL] + tail);
    TextEndAfter(s, ErrorHead, t, tail);
  }

  /** A frame that starts with `data: ` cannot also start with the error line. */
  lemma FieldsDiffer(s: seq<byte>)
    requires DataField <= s
    ensures !(ErrorHead <= s)
  {
    assert s[0] == DataField[0] != ErrorHead[0];
  }

  /** After the fields `head`, the text of a well-formed frame ends at the
      first newline. */
  lemma TextEndAfter(s: seq<byte>, head: seq<byte>, t: seq<byte>, tail: seq<byte>)
    requires NL !in t
    requires s == head + (t + [NL, NL] + tail)
    ensures TextEnd(s, |head|) == Some(|head| + |t|)
    ensures s[|head|..|head| + |t|] == t
  {
    assert s[|head|..] == t + [NL] + ([NL] + tail);
    FirstNewlineAfter(t, [NL] + tail);
    assert s[|head| + |t| + 1] == NL;
  }

  /** In `t + [NL] + u` with `t` newline-free, the first newline ends `t`. */
  lemma {:induction false} FirstNewlineAfter(t: seq<byte>, u: seq<byte>)
    requires NL !in t
    ensures FirstNewline(t + [NL] + u) == Some(|t|)
    decreases |t|
  {
    if |t| > 0 {
      assert (t + [NL] + u)[1..] == t[1..] + [NL] + u;
      FirstNewlineAfter(t[1..], u);
    }
  }

  /** Decoding inverts encoding for well-formed events: the decoder reads
      back exactly the events written, in order. */
  lemma {:induction false} DecodeEncode(es: seq<Event>)
    requires AllWellFormed(es)
    ensures Decode(EncodeAll(es)) == Some(es)
    decreases |es|
  {
    if |es| > 0 {
      DecodeEncode(es[1..]);
      DecodeStep(es[0], EncodeAll(es[1..]));
      assert es == [es[0]] + es[1..];
    }
  }

  /** A well-formed frame in front of a decodable stream adds its event in front. */
  lemma DecodeStep(e: Event, tail: seq<byte>)
    requires WellFormed(e)
    requires Decode(tail).Some?
    ensures Decode(Encode(e) + tail) == Some([e] + Decode(tail).value)
  {
    var s := Encode(e) + tail;
    NextFrameEncode(e, tail);
    assert s[|Encode(e)|..] == tail;
  }

  /** Encoding is one-to-one on well-formed event sequences. */
  lemma EncodeInjective(es: seq<Event>, fs: seq<Event>)
    requires AllWellFormed(es) && AllWellFormed(fs)
    requires EncodeAll(es) == EncodeAll(fs)
    ensures es == fs
  {
    DecodeEncode(es);
    DecodeEncode(fs);
  }

  /** Only the empty event sequence encodes to no bytes. */
  lemma EncodeAllEmptyIff(es: seq<Event>)
    ensures EncodeAll(es) == [] <==> es == []
  {
    if es != [] {
      assert |Encode(es[0])| > 0;
    }
  }

  /** Encoding a concatenation concatenates the encodings. */
  lemma {:induction false} EncodeAllAppend(es: seq<Event>, fs: seq<Event>)
    ensures EncodeAll(es + fs) == EncodeAll(es) + EncodeAll(fs)
    decreases |es|
  {
    if |es| > 0 {
      assert (es + fs)[1..] == es[1..] + fs;
      EncodeAllAppend(es[1..], fs);
    } else {
      assert es + fs == fs;
    }
  }
}

=== FILE: relay.dfy ===
/** The streaming relay of `StreamResponse`: each backend chunk is split on
    `\n`, every non-empty line is written as one `data:` frame, and the
    relay ends with an optional error frame and an optional function-call
    frame. */
module StreamRelay {
  import opened Bytes
  import opened Wrappers
  import opened ByteSplit
  import opened EventStream

  /** A piece of backend output, as handed to the streaming callback. */
  type Chunk = seq<byte>

  /** What the streaming callback gives back: the bytes it wrote to the
      client and the error it returns to the backend (None for Go's nil). */
  datatype Reply = Reply(written: seq<byte>, err: Option<seq<byte>>)

  /** `Failed to call llm`: the message of the error frame written when the
      backend call fails. */
  const FailedToCallLlm: seq<byte> := [0x46, 0x61, 0x69, 0x6C, 0x65, 0x64, 0x20, 0x74, 0x6F, 0x20, 0x63, 0x61, 0x6C, 0x6C, 0x20, 0x6C, 0x6C, 0x6D]

  /** `Function call :`: the text in front of the function call's printed form. */
  const FunctionCallPrefix: seq<byte> := [0x46, 0x75, 0x6E, 0x63, 0x74, 0x69, 0x6F, 0x6E, 0x20, 0x63, 0x61, 0x6C, 0x6C, 0x20, 0x3A]

  /** The byte constants are the ASCII spellings they stand for. */
  lemma MessagesAreAscii()
    ensures FailedToCallLlm == Ascii("Failed to call llm")
    ensures FunctionCallPrefix == Ascii("Function call :")
  {
  }

  /** The segments that are not empty, in order. */
  function NonEmpty(segs: seq<seq<byte>>): (r: seq<seq<byte>>)
    ensures |r| <= |segs|
    ensures forall i | 0 <= i < |r| :: |r[i]| > 0 && r[i] in segs
  {
    if |segs| == 0 then []
    else (if |segs[0]| > 0 then [segs[0]] else []) + NonEmpty(segs[1..])
  }

  /** The lines of a chunk that the callback frames: the `\n`-separated
      segments, empty ones dropped. */
  function Lines(chunk: Chunk): (r: seq<seq<byte>>)
    ensures |r| <= Count(chunk, NL) + 1
    ensures forall i | 0 <= i < |r| :: |r[i]| > 0 && NL !in r[i]
  {
    SplitSegmentsNoSep(chunk, NL);
    NonEmpty(Split(chunk, NL))
  }

  /** One `data` event per line. */
  function DataEvents(lines: seq<seq<byte>>): seq<Event>
  {
    seq(|lines|, i requires 0 <= i < |lines| => Data(lines[i]))
  }

  /** The lines of every chunk, chunk after chunk. */
  function StreamLines(chunks: seq<Chunk>): seq<seq<byte>>
  {
    if |chunks| == 0 then [] else Lines(chunks[0]) + StreamLines(chunks[1..])
  }

  /** The bytes the callback writes for one chunk. A carriage return in the
      chunk is not a line break for the callback: it is written inside a
      `data:` line, and the output holds one exactly when the chunk does. */
  function FrameChunk(chunk: Chunk): (r: seq<byte>)
    ensures CR in r <==> CR in chunk
  {
    LineBytes(chunk, CR);
    DataEventBytes(Lines(chunk), CR);
    EncodeAll(DataEvents(Lines(chunk)))
  }

  /** The frames of every line of a run of chunks, chunk after chunk. */
  function StreamFrames(chunks: seq<Chunk>): seq<byte>
  {
    EncodeAll(DataEvents(StreamLines(chunks)))
  }

  /** The streaming callback: frames the chunk and always returns nil, so it
      never asks the backend to stop. */
  function OnChunk(chunk: Chunk): (r: Reply)
    ensures r.err.None?
  {
    Reply(FrameChunk(chunk), None)
  }

  /** The backend's streaming loop: the callback sees the chunks in order,
      and the first error it returns ends the stream. */
  function Deliver(chunks: seq<Chunk>, handler: Chunk -> Reply): seq<byte>
  {
    if |chunks| == 0 then []
    else
      var r := handler(chunks[0]);
      if r.err.Some? then r.written else r.written + Deliver(chunks[1..], handler)
  }

  /** The whole response body: the frames of all chunks, then the error frame
      when the backend call failed, then the function-call frame when the
      first choice carries one (`repr` is its printed form). The body is the
      encoding of its event list: the line events, then the error event, then
      the function-call event. */
  function Relay(chunks: seq<Chunk>, failed: bool, funcCall: Option<seq<byte>>): (r: seq<byte>)
    ensures r == EncodeAll(RelayEvents(chunks, failed, funcCall))
  {
    var d := DataEvents(StreamLines(chunks));
    DeliverAll(chunks);
    EncodeAllAppend(d, ErrorEvents(failed));
    EncodeAllAppend(d + ErrorEvents(failed), CallEvents(funcCall));
    Deliver(chunks, OnChunk) + ErrorTail(failed) + CallTail(funcCall)
  }

  /** The error frame, written only when the backend call failed: the bytes
      `event: error\ndata: Failed to call llm\n\n`, which encode the error
      event list. */
  function ErrorTail(failed: bool): (r: seq<byte>)
    ensures failed ==> r == Ascii("event: error\ndata: Failed to call llm\n\n")
    ensures !failed ==> r == []
    ensures r == EncodeAll(ErrorEvents(failed))
  {
    if failed then
      var e := Error(FailedToCallLlm);
      ErrorFrameLiteral();
      assert EncodeAll([e]) == Encode(e) + EncodeAll([]);
      Encode(e)
    else []
  }

  /** The function-call frame, written only when the first choice carries a
      call: `data: Function call :`, the call's printed form and the blank
      line, which encode the function-call event list. */
  function CallTail(funcCall: Option<seq<byte>>): (r: seq<byte>)
    ensures funcCall.Some? ==> r == Ascii("data: Function call :") + funcCall.value + Ascii("\n\n")
    ensures funcCall.None? ==> r == []
    ensures r == EncodeAll(CallEvents(funcCall))
  {
    match funcCall
    case Some(repr) =>
      var e := Data(FunctionCallPrefix + repr);
      CallFrameLiteral(repr);
      assert EncodeAll([e]) == Encode(e) + EncodeAll([]);
      Encode(e)
    case None => []
  }

  /** The error event's frame spelled as the literal the handler prints. */
  lemma ErrorFrameLiteral()
    ensures Encode(Error(FailedToCallLlm)) == Ascii("event: error\ndata: Failed to call llm\n\n")
  {
    var whole := "event: error\ndata: Failed to call llm\n\n";
    assert whole == "event: error\n" + "data: " + "Failed to call llm" + "\n\n";
    AsciiAppend("event: error\n", "data: ");
    AsciiAppend("event: error\n" + "data: ", "Failed to call llm");
    AsciiAppend("event: error\n" + "data: " + "Failed to call llm", "\n\n");
    FieldsAreAscii();
    MessagesAreAscii();
    assert Ascii("\n\n") == [NL, NL];
  }

  /** The function-call event's frame spelled as the handler's format string. */
  lemma CallFrameLiteral(repr: seq<byte>)
    ensures Encode(Data(FunctionCallPrefix + repr)) == Ascii("data: Function call :") + repr + Ascii("\n\n")
  {
    FieldsAreAscii();
    MessagesAreAscii();
    assert "data: Function call :" == "data: " + "Function call :";
    AsciiAppend("data: ", "Function call :");
    assert Ascii("data: Function call :") == DataField + FunctionCallPrefix;
    assert Ascii("\n\n") == [NL, NL];
    assert Encode(Data(FunctionCallPrefix + repr)) == DataField + (FunctionCallPrefix + repr) + [NL, NL];
    assert DataField + (FunctionCallPrefix + repr) == (DataField + FunctionCallPrefix) + repr;
  }

  /** The events the relay's body encodes, in order. */
  function RelayEvents(chunks: seq<Chunk>, failed: bool, funcCall: Option<seq<byte>>): seq<Event>
  {
    DataEvents(StreamLines(chunks)) + ErrorEvents(failed) + CallEvents(funcCall)
  }

  /** The error event, present only when the backend call failed. */
  function ErrorEvents(failed: bool): seq<Event>
  {
    if failed then [Error(FailedToCallLlm)] else []
  }

  /** The function-call event, present only when the first choice carries a call. */
  function CallEvents(funcCall: Option<seq<byte>>): seq<Event>
  {
    match funcCall
    case Some(repr) => [Data(FunctionCallPrefix + repr)]
    case None => []
  }

  /** The number of error events in `es`. */
  function ErrorCount(es: seq<Event>): nat
  {
    if |es| == 0 then 0 else (if es[0].Error? then 1 else 0) + ErrorCount(es[1..])
  }

  // ---------------------------------------------------------------------
  // Helper facts about the list functions

  lemma {:induction false} NonEmptyAppend(a: seq<seq<byte>>, b: seq<seq<byte>>)
    ensures NonEmpty(a + b) == NonEmpty(a) + NonEmpty(b)
    decreases |a|
  {
    if |a| == 0 {
      assert a + b == b;
    } else {
      assert (a + b)[1..] == a[1..] + b;
      NonEmptyAppend(a[1..], b);
    }
  }

  lemma {:induction false} NonEmptyEmptyIff(segs: seq<seq<byte>>)
    ensures NonEmpty(segs) == [] <==> forall i | 0 <= i < |segs| :: segs[i] == []
    decreases |segs|
  {
    if |segs| > 0 {
      NonEmptyEmptyIff(segs[1..]);
      if segs[0] == [] {
        assert forall i | 1 <= i < |segs| :: segs[i] == segs[1..][i - 1];
      }
    }
  }

  lemma DataEventsAppend(a: seq<seq<byte>>, b: seq<seq<byte>>)
    ensures DataEvents(a + b) == DataEvents(a) + DataEvents(b)
  {
  }

  lemma {:induction false} ErrorCountAppend(es: seq<Event>, fs: seq<Event>)
    ensures ErrorCount(es + fs) == ErrorCount(es) + ErrorCount(fs)
    decreases |es|
  {
    if |es| == 0 {
      assert es + fs == fs;
    } else {
      assert (es + fs)[1..] == es[1..] + fs;
      ErrorCountAppend(es[1..], fs);
    }
  }

  lemma {:induction false} ErrorCountData(lines: seq<seq<byte>>)
    ensures ErrorCount(DataEvents(lines)) == 0
    decreases |lines|
  {
    if |lines| > 0 {
      assert DataEvents(lines)[1..] == DataEvents(lines[1..]);
      ErrorCountData(lines[1..]);
    }
  }

  /** The segments kept are exactly the non-empty ones. */
  lemma {:induction false} NonEmptyMembers(segs: seq<seq<byte>>)
    ensures forall x :: x in NonEmpty(segs) <==> x in segs && |x| > 0
    decreases |segs|
  {
    if |segs| > 0 {
      NonEmptyMembers(segs[1..]);
      assert segs == [segs[0]] + segs[1..];
    }
  }

  /** Dropping empty segments loses no byte. */
  lemma NonEmptyHas(segs: seq<seq<byte>>, b: byte)
    ensures (exists i | 0 <= i < |NonEmpty(segs)| :: b in NonEmpty(segs)[i])
        <==> (exists i | 0 <= i < |segs| :: b in segs[i])
  {
    var r := NonEmpty(segs);
    NonEmptyMembers(segs);
    if exists i | 0 <= i < |r| :: b in r[i] {
      var i :| 0 <= i < |r| && b in r[i];
      assert r[i] in segs;
      var j :| 0 <= j < |segs| && segs[j] == r[i];
      assert b in segs[j];
    }
    if exists i | 0 <= i < |segs| :: b in segs[i] {
      var i :| 0 <= i < |segs| && b in segs[i];
      assert segs[i] in r;
      var j :| 0 <= j < |r| && r[j] == segs[i];
      assert 0 <= j < |NonEmpty(segs)| && b in NonEmpty(segs)[j];
    }
  }

  /** A byte other than `\n` occurs in a chunk exactly when it occurs in one
      of the chunk's lines. */
  lemma LineBytes(chunk: Chunk, b: byte)
    requires b != NL
    ensures b in chunk <==> exists i | 0 <= i < |Lines(chunk)| :: b in Lines(chunk)[i]
  {
    SplitHas(chunk, NL, b);
    NonEmptyHas(Split(chunk, NL), b);
    assert Lines(chunk) == NonEmpty(Split(chunk, NL));
  }

  /** A byte that is neither `\n` nor part of `data: ` occurs in the frames of
      some lines exactly when it occurs in one of the lines. */
  lemma {:induction false} DataEventBytes(lines: seq<seq<byte>>, b: byte)
    requires b != NL && b !in DataField
    ensures b in EncodeAll(DataEvents(lines)) <==> exists i | 0 <= i < |lines| :: b in lines[i]
    decreases |lines|
  {
    if |lines| > 0 {
      var rest := lines[1..];
      assert DataEvents(lines)[1..] == DataEvents(rest);
      DataEventBytes(rest, b);
      assert EncodeAll(DataEvents(lines)) == DataField + lines[0] + [NL, NL] + EncodeAll(DataEvents(rest));
      if exists i | 0 <= i < |rest| :: b in rest[i] {
        var i :| 0 <= i < |rest| && b in rest[i];
        assert b in lines[i + 1];
      }
      if exists i | 0 <= i < |lines| :: b in lines[i] {
        var i :| 0 <= i < |lines| && b in lines[i];
        if i > 0 {
          assert b in rest[i - 1];
        }
      }
    }
  }

  // ---------------------------------------------------------------------
  // One chunk

  /** What the decoder reads from one chunk's frames is one `data` event per
      non-empty line, in order, each carrying a non-empty text with no `\n`. */
  lemma FrameChunkDecodes(chunk: Chunk)
    ensures Decode(FrameChunk(chunk)) == Some(DataEvents(Lines(chunk)))
    ensures forall e | e in DataEvents(Lines(chunk)) :: e.Data? && |e.text| > 0 && NL !in e.text
  {
    var lines := Lines(chunk);
    DecodeEncode(DataEvents(lines));
  }

  /** A chunk made of `\n`-separated lines yields exactly one frame
      `data: <line>\n\n` per non-empty line, in the order of the lines, and
      nothing for an empty line. */
  lemma FrameChunkOfLines(lines: seq<seq<byte>>)
    requires forall i | 0 <= i < |lines| :: NL !in lines[i]
    ensures FrameChunk(Join(lines, NL)) == EncodeAll(DataEvents(NonEmpty(lines)))
  {
    if |lines| == 0 {
      assert Split([], NL) == [[]];
    } else {
      SplitJoin(lines, NL);
    }
  }

  /** A chunk writes nothing exactly when it is empty or made only of `\n`. */
  lemma FrameChunkEmptyIff(chunk: Chunk)
    ensures FrameChunk(chunk) == [] <==> forall i | 0 <= i < |chunk| :: chunk[i] == NL
  {
    var segs := Split(chunk, NL);
    NonEmptyEmptyIff(segs);
    EncodeAllEmptyIff(DataEvents(Lines(chunk)));
    assert FrameChunk(chunk) == [] <==> Lines(chunk) == [];
    if Lines(chunk) == [] {
      JoinSplit(chunk, NL);
      AllEmptyJoin(segs);
    }
    if forall i | 0 <= i < |chunk| :: chunk[i] == NL {
      OnlyNewlinesSplit(chunk);
    }
  }

  /** Joining empty segments leaves only separators. */
  lemma {:induction false} AllEmptyJoin(segs: seq<seq<byte>>)
    requires forall i | 0 <= i < |segs| :: segs[i] == []
    ensures forall i | 0 <= i < |Join(segs, NL)| :: Join(segs, NL)[i] == NL
    decreases |segs|
  {
    if |segs| > 1 {
      AllEmptyJoin(segs[1..]);
      assert Join(segs, NL) == [NL] + Join(segs[1..], NL);
    }
  }

  /** Every segment of a run of `\n` is empty. */
  lemma {:induction false} OnlyNewlinesSplit(chunk: Chunk)
    requires forall i | 0 <= i < |chunk| :: chunk[i] == NL
    ensures forall i | 0 <= i < |Split(chunk, NL)| :: Split(chunk, NL)[i] == []
    decreases |chunk|
  {
    if |chunk| > 0 {
      OnlyNewlinesSplit(chunk[1..]);
    }
  }

  /** Framing is a homomorphism over `\n`: a chunk holding two pieces joined
      by a newline writes the frames of the first piece, then those of the
      second. */
  lemma FrameChunkNewline(a: Chunk, b: Chunk)
    ensures FrameChunk(a + [NL] + b) == FrameChunk(a) + FrameChunk(b)
  {
    SplitConcat(a, b, NL);
    NonEmptyAppend(Split(a, NL), Split(b, NL));
    DataEventsAppend(Lines(a), Lines(b));
    EncodeAllAppend(DataEvents(Lines(a)), DataEvents(Lines(b)));
  }

  /** Lines are not reassembled across chunks: a line delivered in two
      chunks is written as two frames, not as the one frame it would get in a
      single chunk. */
  lemma LineAcrossChunks(a: Chunk, b: Chunk)
    requires |a| > 0 && NL !in a
    requires |b| > 0 && NL !in b
    ensures FrameChunk(a) + FrameChunk(b) == Encode(Data(a)) + Encode(Data(b))
    ensures FrameChunk(a + b) == Encode(Data(a + b))
    ensures FrameChunk(a) + FrameChunk(b) != FrameChunk(a + b)
  {
    SingleLineFrame(a);
    SingleLineFrame(b);
    SingleLineFrame(a + b);
    assert |Encode(Data(a)) + Encode(Data(b))| == |DataField| + |a| + 2 + |DataField| + |b| + 2;
    assert |Encode(Data(a + b))| == |DataField| + |a| + |b| + 2;
  }

  /** A non-empty chunk without `\n` is written as the single frame of itself. */
  lemma SingleLineFrame(a: Chunk)
    requires |a| > 0 && NL !in a
    ensures FrameChunk(a) == Encode(Data(a))
  {
    OneLineChunk(a);
    assert DataEvents([a]) == [Data(a)];
    assert EncodeAll([Data(a)]) == Encode(Data(a)) + EncodeAll([]);
  }

  // ---------------------------------------------------------------------
  // The whole relay

  /** Because the callback never returns an error, the backend hands it every
      chunk, and the data frames are those of all lines of all chunks in
      order. */
  lemma {:induction false} DeliverAll(chunks: seq<Chunk>)
    ensures Deliver(chunks, OnChunk) == StreamFrames(chunks)
    decreases |chunks|
  {
    if |chunks| > 0 {
      DeliverAll(chunks[1..]);
      DataEventsAppend(Lines(chunks[0]), StreamLines(chunks[1..]));
      EncodeAllAppend(DataEvents(Lines(chunks[0])), DataEvents(StreamLines(chunks[1..])));
    }
  }

  /** The decoder reads back exactly the relay's events, provided the
      function call's printed form stays on one line. */
  lemma RelayDecodes(chunks: seq<Chunk>, failed: bool, funcCall: Option<seq<byte>>)
    requires funcCall.Some? ==> NL !in funcCall.value
    ensures Decode(Relay(chunks, failed, funcCall)) == Some(RelayEvents(chunks, failed, funcCall))
  {
    RelayEventsWellFormed(chunks, failed, funcCall);
    DecodeEncode(RelayEvents(chunks, failed, funcCall));
  }

  /** A function call printed over several lines breaks the framing: the
      body no longer decodes into the events the relay meant to write, since
      the function-call frame's text carries a `\n` of its own. */
  lemma MultiLineCallBreaksFraming(chunks: seq<Chunk>, failed: bool, repr: seq<byte>)
    requires NL in repr
    ensures Decode(Relay(chunks, failed, Some(repr))) != Some(RelayEvents(chunks, failed, Some(repr)))
  {
    var es := RelayEvents(chunks, failed, Some(repr));
    RelayEventsShape(chunks, failed, Some(repr));
    assert NL in (FunctionCallPrefix + repr);
    assert !WellFormed(es[|es| - 1]);
  }

  /** The decoder rejects a body whose function-call text runs onto a second
      line: after `data: Function call :x\n` it finds no blank line, only the
      stray line `y`. */
  lemma MultiLineCallRejected(x: seq<byte>, y: seq<byte>)
    requires NL !in x
    requires |y| > 0 && y[0] != NL
    ensures Decode(Relay([], false, Some(x + [NL] + y))) == None
  {
    var t := FunctionCallPrefix + x;
    var r := x + [NL] + y;
    assert Deliver([], OnChunk) == [];
    assert Relay([], false, Some(r)) == CallTail(Some(r));
    assert CallTail(Some(r)) == Encode(Data(FunctionCallPrefix + r));
    assert FunctionCallPrefix + r == t + [NL] + y;
    NoNewlineInMessages();
    StrayLineRejected(t, y);
  }

  /** The body holds a carriage return exactly when some chunk or the
      function call's printed form does: the relay's own text has none. */
  lemma RelayCarriageReturn(chunks: seq<Chunk>, failed: bool, funcCall: Option<seq<byte>>)
    ensures CR in Relay(chunks, failed, funcCall)
        <==> (exists k | 0 <= k < |chunks| :: CR in chunks[k])
             || (funcCall.Some? && CR in funcCall.value)
  {
    DeliverCarriageReturn(chunks);
    ErrorTailCarriageReturn(failed);
    CallTailCarriageReturn(funcCall);
    assert Relay(chunks, failed, funcCall)
        == Deliver(chunks, OnChunk) + ErrorTail(failed) + CallTail(funcCall);
  }

  lemma ErrorTailCarriageReturn(failed: bool)
    ensures CR !in ErrorTail(failed)
  {
    if failed {
      assert CR !in ErrorHead && CR !in FailedToCallLlm;
      assert ErrorTail(failed) == ErrorHead + FailedToCallLlm + [NL, NL];
    }
  }

  lemma CallTailCarriageReturn(funcCall: Option<seq<byte>>)
    ensures CR in CallTail(funcCall) <==> funcCall.Some? && CR in funcCall.value
  {
    if funcCall.Some? {
      assert CR !in DataField && CR !in FunctionCallPrefix;
      assert CallTail(funcCall) == DataField + FunctionCallPrefix + funcCall.value + [NL, NL];
    }
  }

  /** The callback's output over all chunks holds a carriage return exactly
      when some chunk does. */
  lemma {:induction false} DeliverCarriageReturn(chunks: seq<Chunk>)
    ensures CR in Deliver(chunks, OnChunk) <==> exists k | 0 <= k < |chunks| :: CR in chunks[k]
    decreases |chunks|
  {
    if |chunks| > 0 {
      var rest := chunks[1..];
      DeliverCarriageReturn(rest);
      assert Deliver(chunks, OnChunk) == FrameChunk(chunks[0]) + Deliver(rest, OnChunk);
      if exists k | 0 <= k < |rest| :: CR in rest[k] {
        var k :| 0 <= k < |rest| && CR in rest[k];
        assert CR in chunks[k + 1];
      }
      if exists k | 0 <= k < |chunks| :: CR in chunks[k] {
        var k :| 0 <= k < |chunks| && CR in chunks[k];
        if k > 0 {
          assert CR in rest[k - 1];
        }
      }
    }
  }

  lemma RelayEventsWellFormed(chunks: seq<Chunk>, failed: bool, funcCall: Option<seq<byte>>)
    requires funcCall.Some? ==> NL !in funcCall.value
    ensures AllWellFormed(RelayEvents(chunks, failed, funcCall))
  {
    var d := DataEvents(StreamLines(chunks));
    assert AllWellFormed(d) by {
      forall i | 0 <= i < |d|
        ensures WellFormed(d[i])
      {
        StreamLinesNoNewline(chunks, i);
      }
    }
    NoNewlineInMessages();
    assert AllWellFormed(ErrorEvents(failed));
    assert AllWellFormed(CallEvents(funcCall));
    AllWellFormedAppend(d, ErrorEvents(failed));
    AllWellFormedAppend(d + ErrorEvents(failed), CallEvents(funcCall));
  }

  /** The shape of the relay's events: one `data` event per line of the
      chunks in order, then exactly one error event if and only if the backend
      call failed, then the function-call event last when there is one. */
  lemma RelayEventsShape(chunks: seq<Chunk>, failed: bool, funcCall: Option<seq<byte>>)
    ensures var es := RelayEvents(chunks, failed, funcCall);
      var n := |StreamLines(chunks)|;
      && |es| == n + (if failed then 1 else 0) + (if funcCall.Some? then 1 else 0)
      && (forall i | 0 <= i < n :: es[i] == Data(StreamLines(chunks)[i]))
      && ErrorCount(es) == (if failed then 1 else 0)
      && (failed ==> es[n] == Error(FailedToCallLlm))
      && (funcCall.Some? ==> es[|es| - 1] == Data(FunctionCallPrefix + funcCall.value))
  {
    var d := DataEvents(StreamLines(chunks));
    var err := ErrorEvents(failed);
    var fc := CallEvents(funcCall);
    ErrorCountData(StreamLines(chunks));
    ErrorCountAppend(d, err);
    ErrorCountAppend(d + err, fc);
    assert ErrorCount(err) == (if failed then 1 else 0) by {
      if failed {
        assert err[1..] == [];
      }
    }
    assert ErrorCount(fc) == 0 by {
      if funcCall.Some? {
        assert fc[1..] == [];
      }
    }
  }

  lemma NoNewlineInMessages()
    ensures NL !in FailedToCallLlm
    ensures NL !in FunctionCallPrefix
  {
  }

  lemma {:induction false} StreamLinesNoNewline(chunks: seq<Chunk>, i: nat)
    requires i < |StreamLines(chunks)|
    ensures NL !in StreamLines(chunks)[i]
    decreases |chunks|
  {
    var ls := Lines(chunks[0]);
    if i >= |ls| {
      StreamLinesNoNewline(chunks[1..], i - |ls|);
    }
  }

  /** Lines of a concatenation of chunk sequences are those of each, in order. */
  lemma {:induction false} StreamLinesAppend(a: seq<Chunk>, b: seq<Chunk>)
    ensures StreamLines(a + b) == StreamLines(a) + StreamLines(b)
    decreases |a|
  {
    if |a| == 0 {
      assert a + b == b;
    } else {
      assert (a + b)[1..] == a[1..] + b;
      StreamLinesAppend(a[1..], b);
    }
  }

  // ---------------------------------------------------------------------
  // The handler's loops

  /** The callback as `StreamResponse` runs it: split the chunk on `\n`,
      frame its segments, return nil. */
  method WriteChunk(chunk: Chunk) returns (written: seq<byte>, err: Option<seq<byte>>)
    ensures written == FrameChunk(chunk)
    ensures err.None?
  {
    var segs := Split(chunk, NL);
    written := WriteSegments(segs);
    assert FrameChunk(chunk) == SegmentFrames(segs);
    err := None;
  }

  /** The callback's loop: for each segment, in order, write the frame of a
      non-empty one and skip an empty one. */
  method WriteSegments(segs: seq<seq<byte>>) returns (written: seq<byte>)
    ensures written == SegmentFrames(segs)
  {
    written := [];
    var i := 0;
    while i < |segs|
      invariant 0 <= i <= |segs|
      invariant written == SegmentFrames(segs[..i])
    {
      var line := segs[i];
      if |line| > 0 {
        written := written + Encode(Data(line));
      }
      FrameStep(segs, i);
      i := i + 1;
    }
    assert segs[..i] == segs;
  }

  /** The frames written for a run of segments: one per non-empty segment,
      in order. A chunk's frames are those of its `\n`-separated segments. */
  function SegmentFrames(segs: seq<seq<byte>>): seq<byte>
  {
    EncodeAll(DataEvents(NonEmpty(segs)))
  }

  /** One more segment adds its frame when it is not empty, and nothing otherwise. */
  lemma FrameStep(segs: seq<seq<byte>>, i: nat)
    requires i < |segs|
    ensures SegmentFrames(segs[..i + 1])
         == SegmentFrames(segs[..i]) + (if |segs[i]| > 0 then Encode(Data(segs[i])) else [])
  {
    assert segs[..i + 1] == segs[..i] + [segs[i]];
    NonEmptyAppend(segs[..i], [segs[i]]);
    var last := NonEmpty([segs[i]]);
    assert last == if |segs[i]| > 0 then [segs[i]] else [];
    DataEventsAppend(NonEmpty(segs[..i]), last);
    EncodeAllAppend(DataEvents(NonEmpty(segs[..i])), DataEvents(last));
    assert EncodeAll(DataEvents(last)) == if |segs[i]| > 0 then Encode(Data(segs[i])) + EncodeAll([]) else [];
  }

  /** The body `StreamResponse` writes: the callback's frames for every chunk
      in arrival order, then the error frame if the call failed, then the
      function-call frame if the first choice carries one. */
  method StreamResponse(chunks: seq<Chunk>, failed: bool, funcCall: Option<seq<byte>>) returns (body: seq<byte>)
    ensures body == Relay(chunks, failed, funcCall)
  {
    body := [];
    var i := 0;
    while i < |chunks|
      invariant 0 <= i <= |chunks|
      invariant body == StreamFrames(chunks[..i])
    {
      var written, err := WriteChunk(chunks[i]);
      // The backend would stop streaming on an error; the callback returns none.
      assert err.None?;
      body := body + written;
      ChunkStep(chunks, i);
      i := i + 1;
    }
    assert chunks[..i] == chunks;
    DeliverAll(chunks);
    ghost var data := body;
    assert data == Deliver(chunks, OnChunk);
    if failed {
      body := body + Encode(Error(FailedToCallLlm));
    }
    assert body == data + ErrorTail(failed);
    ghost var beforeCall := body;
    if funcCall.Some? {
      body := body + Encode(Data(FunctionCallPrefix + funcCall.value));
    }
    assert body == beforeCall + CallTail(funcCall);
  }

  /** One more chunk adds that chunk's frames after those already written. */
  lemma ChunkStep(chunks: seq<Chunk>, i: nat)
    requires i < |chunks|
    ensures StreamFrames(chunks[..i + 1]) == StreamFrames(chunks[..i]) + FrameChunk(chunks[i])
  {
    assert chunks[..i + 1] == chunks[..i] + [chunks[i]];
    StreamFramesAppend(chunks[..i], [chunks[i]]);
    SingleChunkFrames(chunks[i]);
  }

  lemma StreamFramesAppend(a: seq<Chunk>, b: seq<Chunk>)
    ensures StreamFrames(a + b) == StreamFrames(a) + StreamFrames(b)
  {
    StreamLinesAppend(a, b);
    DataEventsAppend(StreamLines(a), StreamLines(b));
    EncodeAllAppend(DataEvents(StreamLines(a)), DataEvents(StreamLines(b)));
  }

  lemma SingleChunkFrames(c: Chunk)
    ensures StreamFrames([c]) == FrameChunk(c)
  {
    assert StreamLines([c]) == Lines(c) + StreamLines([]);
    assert StreamLines([c]) == Lines(c);
  }

  // ---------------------------------------------------------------------
  // Scenarios

  /** Chunks `l1\nl2` and `l3`, each line non-empty, are read as three
      `data` events `l1`, `l2`, `l3` in order, and no error event. */
  lemma ThreeLinesScenario(l1: seq<byte>, l2: seq<byte>, l3: seq<byte>)
    requires |l1| > 0 && NL !in l1
    requires |l2| > 0 && NL !in l2
    requires |l3| > 0 && NL !in l3
    ensures Decode(Relay([l1 + [NL] + l2, l3], false, None)) == Some([Data(l1), Data(l2), Data(l3)])
  {
    var chunks := [l1 + [NL] + l2, l3];
    assert RelayEvents(chunks, false, None) == [Data(l1), Data(l2), Data(l3)] by {
      TwoLineChunk(l1, l2);
      OneLineChunk(l3);
      assert StreamLines(chunks) == [l1, l2] + ([l3] + StreamLines([]));
    }
    RelayDecodes(chunks, false, None);
  }

  /** The lines of `a\nb` with `a` and `b` non-empty single lines. */
  lemma TwoLineChunk(a: seq<byte>, b: seq<byte>)
    requires |a| > 0 && NL !in a
    requires |b| > 0 && NL !in b
    ensures Lines(a + [NL] + b) == [a, b]
  {
    SplitConcat(a, b, NL);
    SplitNoSep(a, NL);
    SplitNoSep(b, NL);
    assert Split(a + [NL] + b, NL) == [a, b];
    NonEmptyAppend([a], [b]);
    assert NonEmpty([a]) == [a] + NonEmpty([]);
    assert NonEmpty([b]) == [b] + NonEmpty([]);
    assert [a] + [b] == [a, b];
  }

  /** The lines of a non-empty single line are that line. */
  lemma OneLineChunk(a: seq<byte>)
    requires |a| > 0 && NL !in a
    ensures Lines(a) == [a]
  {
    SplitNoSep(a, NL);
    assert NonEmpty([a]) == [a] + NonEmpty([]);
  }

  /** A backend that fails after one chunk: that chunk's `data` events, then
      exactly one error event. */
  lemma FailureAfterChunkScenario(chunk: Chunk)
    ensures Decode(Relay([chunk], true, None))
         == Some(DataEvents(Lines(chunk)) + [Error(FailedToCallLlm)])
  {
    assert RelayEvents([chunk], true, None) == DataEvents(Lines(chunk)) + [Error(FailedToCallLlm)] by {
      assert StreamLines([chunk]) == Lines(chunk) + StreamLines([]);
    }
    RelayDecodes([chunk], true, None);
  }

  /** A backend that fails before any chunk: the error event alone. */
  lemma FailureBeforeChunkScenario()
    ensures Decode(Relay([], true, None)) == Some([Error(FailedToCallLlm)])
  {
    assert RelayEvents([], true, None) == [Error(FailedToCallLlm)] by {
      assert DataEvents(StreamLines([])) == [];
    }
    RelayDecodes([], true, None);
  }
}

=== FILE: split.dfy ===
/** Go's `bytes.Split` and `bytes.Join` for a one-byte separator. */
module ByteSplit {
  import opened Bytes

  /** Number of occurrences of `b` in `s` (Go's `bytes.Count`). */
  function Count(s: seq<byte>, b: byte): (n: nat)
    ensures n <= |s|
    ensures n == 0 <==> b !in s
  {
    if |s| == 0 then 0 else (if s[0] == b then 1 else 0) + Count(s[1..], b)
  }

  /** Counting over a concatenation adds up. */
  lemma {:induction false} CountAppend(a: seq<byte>, b: seq<byte>, x: byte)
    ensures Count(a + b, x) == Count(a, x) + Count(b, x)
    decreases |a|
  {
    if |a| == 0 {
      assert a + b == b;
    } else {
      assert (a + b)[1..] == a[1..] + b;
      CountAppend(a[1..], b, x);
    }
  }

  /** The segments of `s` between occurrences of `sep`: n separators give
      n + 1 segments, empty ones included, and the empty input gives one
      empty segment. */
  function Split(s: seq<byte>, sep: byte): (r: seq<seq<byte>>)
    ensures |r| == Count(s, sep) + 1
    decreases |s|
  {
    if |s| == 0 then [[]]
    else
      var rest := Split(s[1..], sep);
      if s[0] == sep then [[]] + rest
      else [[s[0]] + rest[0]] + rest[1..]
  }

  /** No segment contains the separator. */
  lemma {:induction false} SplitSegmentsNoSep(s: seq<byte>, sep: byte)
    ensures forall i | 0 <= i < |Split(s, sep)| :: sep !in Split(s, sep)[i]
    decreases |s|
  {
    if |s| > 0 {
      SplitSegmentsNoSep(s[1..], sep);
    }
  }

  /** The parts with `sep` between consecutive ones. */
  function Join(parts: seq<seq<byte>>, sep: byte): seq<byte>
  {
    if |parts| == 0 then []
    else if |parts| == 1 then parts[0]
    else parts[0] + [sep] + Join(parts[1..], sep)
  }

  /** Joining the segments back with the separator restores the input. */
  lemma {:induction false} JoinSplit(s: seq<byte>, sep: byte)
    ensures Join(Split(s, sep), sep) == s
    decreases |s|
  {
    if |s| > 0 {
      var rest := Split(s[1..], sep);
      JoinSplit(s[1..], sep);
      if s[0] == sep {
        assert Split(s, sep) == [[]] + rest;
        assert s == [sep] + s[1..];
      } else {
        assert Split(s, sep) == [[s[0]] + rest[0]] + rest[1..];
        if |rest| == 1 {
          assert Join(rest, sep) == rest[0];
        } else {
          assert Join(rest, sep) == rest[0] + [sep] + Join(rest[1..], sep);
        }
        assert s == [s[0]] + s[1..];
      }
    }
  }

  /** A separator-free sequence is a single segment. */
  lemma {:induction false} SplitNoSep(s: seq<byte>, sep: byte)
    requires sep !in s
    ensures Split(s, sep) == [s]
    decreases |s|
  {
    if |s| > 0 {
      SplitNoSep(s[1..], sep);
      assert s == [s[0]] + s[1..];
    }
  }

  /** Splitting distributes over a separator: the segments of `a` are
      followed by those of `b`, and no segment spans the separator. */
  lemma {:induction false} SplitConcat(a: seq<byte>, b: seq<byte>, sep: byte)
    ensures Split(a + [sep] + b, sep) == Split(a, sep) + Split(b, sep)
    decreases |a|
  {
    var s := a + [sep] + b;
    if |a| == 0 {
      assert s == [sep] + b;
      SplitCons(sep, b, sep);
    } else {
      var x, a' := a[0], a[1..];
      var t := a' + [sep] + b;
      assert s == [x] + t;
      assert a == [x] + a';
      SplitConcat(a', b, sep);
      SplitCons(x, t, sep);
      SplitCons(x, a', sep);
      ConsDistributes(x, Split(a', sep), Split(b, sep), sep);
    }
  }

  /** The list step of `SplitConcat`: putting one byte in front of the first
      segment commutes with appending more segments. */
  lemma ConsDistributes(x: byte, ra: seq<seq<byte>>, rb: seq<seq<byte>>, sep: byte)
    requires |ra| >= 1
    ensures (if x == sep then [[]] + (ra + rb) else [[x] + (ra + rb)[0]] + (ra + rb)[1..])
         == (if x == sep then [[]] + ra else [[x] + ra[0]] + ra[1..]) + rb
  {
    if x != sep {
      assert (ra + rb)[1..] == ra[1..] + rb;
    }
  }

  /** How one more byte in front changes the segments. */
  lemma SplitCons(x: byte, t: seq<byte>, sep: byte)
    ensures Split([x] + t, sep)
         == if x == sep then [[]] + Split(t, sep)
            else [[x] + Split(t, sep)[0]] + Split(t, sep)[1..]
  {
    assert ([x] + t)[1..] == t;
  }

  /** Splitting separator-free parts joined with the separator gives the parts back. */
  lemma {:induction false} SplitJoin(parts: seq<seq<byte>>, sep: byte)
    requires |parts| >= 1
    requires forall i | 0 <= i < |parts| :: sep !in parts[i]
    ensures Split(Join(parts, sep), sep) == parts
    decreases |parts|
  {
    SplitNoSep(parts[0], sep);
    if |parts| > 1 {
      SplitJoin(parts[1..], sep);
      SplitConcat(parts[0], Join(parts[1..], sep), sep);
      assert parts == [parts[0]] + parts[1..];
    }
  }

  /** A byte other than the separator occurs in the joined sequence exactly
      when it occurs in one of the parts. */
  lemma {:induction false} JoinHas(parts: seq<seq<byte>>, sep: byte, b: byte)
    requires b != sep
    ensures b in Join(parts, sep) <==> exists i | 0 <= i < |parts| :: b in parts[i]
    decreases |parts|
  {
    if |parts| > 1 {
      var rest := parts[1..];
      JoinHas(rest, sep, b);
      assert Join(parts, sep) == parts[0] + [sep] + Join(rest, sep);
      if b in Join(rest, sep) {
        var j :| 0 <= j < |rest| && b in rest[j];
        assert b in parts[j + 1];
      }
      if exists i | 0 <= i < |parts| :: b in parts[i] {
        var i :| 0 <= i < |parts| && b in parts[i];
        if i > 0 {
          assert b in rest[i - 1];
        }
      }
    }
  }

  /** Splitting loses no byte other than the separator: such a byte occurs in
      `s` exactly when it occurs in one of the segments. */
  lemma SplitHas(s: seq<byte>, sep: byte, b: byte)
    requires b != sep
    ensures b in s <==> exists i | 0 <= i < |Split(s, sep)| :: b in Split(s, sep)[i]
  {
    JoinSplit(s, sep);
    JoinHas(Split(s, sep), sep, b);
  }
}

=== FILE: wrappers.dfy ===
/** The optional-value datatype used across the model. */
module Wrappers {

  /** A value that may be absent: Go's nil pointer or nil error. */
  datatype Option<+T> = None | Some(value: T)
}
